=== FILE: README.md ===
# soshari: trait sets, the Johari/Nohari window and submissions

This project models the core of soshari, a Discord bot that runs two personality
assessments, `/johari` and `/nohari`. The core has three pieces:

- **The trait-set encoding.** The `generate_adjectives!` macro turns a list of trait names
  into three things: an ordered vocabulary, a `u64` bitflag type in which the i-th name owns
  bit `1 << i`, and conversions between name lists and flag sets. In the model a vocabulary
  is a `seq<string>` and a flag set is the `set<nat>` of its bit positions (`Flags`,
  `Vocabulary`). The two commands use a different macro, the `#[adjectives(...)]` attribute,
  whose body is not available. The model assumes it generates the same encoding; "## Left
  out" lists exactly what that assumption covers.
- **The window classifier.** The `query` subcommand takes a subject's own flag set and the
  flag sets their peers chose for them. From these it computes per-trait Arena and Blind
  counts and the Facade and Unknown sets. The two commands run the same loop over different
  vocabularies, so it is modelled once for a vocabulary of `n` names (`Classifier`). How the
  window becomes the text of four embed fields is in `Render`.
- **Submissions.** The `start` subcommand records a self-assessment or a peer assessment in
  the in-memory group: a list of subject records, each holding peer entries. Lookup returns
  the first record with a matching id (`Group`).

`Kinds` holds the two concrete vocabularies, with 55 and 49 names, and applies the window
partition to each. `Examples` works the model
through the macro's own test and through a three-trait window.

A repeated self-assessment does not replace the subject's record. `start` pushes a new
top-level record every time (src/commands/nohari.rs:110-116), and lookup finds the first
one. So a later self-assessment is stored but never seen by `query` or by later peer
submissions. `Group.SelfAssessmentShadowed` states this.

## Model

| member | source | states |
|---|---|---|
| `Flags.Universe` | src/commands/nohari.rs:153 | `all()` for a type with n flags: a position is in it exactly when it is below n; `complement()` is taken within it |
| `Flags.Complement` | src/commands/nohari.rs:153-157 | `complement()` and `!` keep only defined flags: a defined position is in the result exactly when it is not in the input, and nothing undefined is |
| `Vocabulary.Adjectives` | soshari_macros/src/lib.rs:11-20 | the vocabulary is no longer than the input, and a name is in it exactly when an identifier token with that name is in the macro input |
| `Vocabulary.AdjectivesAppend` | soshari_macros/src/lib.rs:11-20 | extraction keeps input order: the vocabulary of a concatenated input is the concatenation of the vocabularies |
| `Vocabulary.Find` | soshari_macros/src/lib.rs:43-45 | the generated `match` picks the first vocabulary entry equal to the name, or the `_` arm exactly when the name is not in the vocabulary |
| `Vocabulary.FindPosition` | soshari_macros/src/lib.rs:36 | in a vocabulary without repeats, the name at position i selects flag i |
| `Vocabulary.ToFlags` | soshari_macros/src/lib.rs:40-49 | `adjectives_to_bitflags` sets exactly the positions whose names occur in the input, and no position outside the vocabulary |
| `Vocabulary.SingleFlag` | soshari_macros/src/lib.rs:27-37 | each name alone selects the single flag of its position, and distinct names select distinct flags |
| `Vocabulary.ToFlagsEmpty` | soshari_macros/src/lib.rs:41-48 | no names give the empty flag set |
| `Vocabulary.ToFlagsIgnoresOrder` | soshari_macros/src/lib.rs:42-47 | two inputs with the same members give the same flag set, whatever their order and repetitions |
| `Vocabulary.ToFlagsIgnoresUnknown` | soshari_macros/src/lib.rs:43-45 | a name outside the vocabulary leaves the result unchanged wherever it appears in the input |
| `Vocabulary.NamesBelow` | soshari_macros/src/lib.rs:54-56 | the first k arms of the unrolled `if` chain push exactly the names of set flags below k |
| `Vocabulary.ToNames` | soshari_macros/src/lib.rs:51-59 | `bitflags_to_adjectives` returns exactly the names of the set flags of the vocabulary |
| `Vocabulary.NamesBelowOrdered` | soshari_macros/src/lib.rs:54-56 | the pushed names are in strictly increasing vocabulary position, all below k |
| `Vocabulary.ToNamesOrdered` | soshari_macros/src/lib.rs:51-59 | `bitflags_to_adjectives` lists names in vocabulary order, each at most once |
| `Vocabulary.NamesBelowLength` | soshari_macros/src/lib.rs:54-56 | the first k arms push one name per set flag below k |
| `Vocabulary.ToNamesLength` | soshari_macros/src/lib.rs:51-59 | the result has one name per defined set flag |
| `Vocabulary.OrderedUnique` | soshari_macros/src/lib.rs:51-59 | two name lists in vocabulary order with the same members are equal, so the vocabulary-order list of a set is unique |
| `Vocabulary.FlagsRoundTrip` | soshari_macros/src/lib.rs:40-59 | set to names to set is the identity on every set of defined flags |
| `Vocabulary.NamesRoundTrip` | soshari_macros/src/lib.rs:40-59 | names to set to names gives the vocabulary-ordered, repeat-free list of exactly the input's vocabulary names |
| `Kinds.VocabularySizes` | src/commands/nohari.rs:20-24 | the `/nohari` vocabulary has 55 names and the `/johari` one (src/commands/johari.rs:19-25) has 49; both fit the 64-bit flag word |
| `Kinds.NohariPartition` | src/commands/nohari.rs:147-168 | over the 55-name `/nohari` vocabulary, every trait lands in exactly one of Arena at least 1, Blind at least 1, Facade, Unknown |
| `Kinds.JohariPartition` | src/commands/johari.rs:149-169 | over the 49-name `/johari` vocabulary, every trait lands in exactly one of the four parts |
| `Classifier.CountPositive` | src/commands/nohari.rs:155-166 | a trait is counted by at least one peer exactly when some peer set contains it |
| `Classifier.CountAppend` | src/commands/nohari.rs:155-166 | one more peer set adds one to the count of each trait it holds, and adds its traits to the union |
| `Classifier.Bump` | src/commands/nohari.rs:159-164 | the counter loop adds one to the counter of every trait in the flag set and leaves every other counter alone |
| `Classifier.Classify` | src/commands/nohari.rs:147-167 | the accumulation loop (identical at src/commands/johari.rs:149-169) produces the closed form: Arena(t) counts the peer sets holding t when t is self-chosen, else 0; Blind(t) the same when t is not self-chosen, else 0; Facade = own minus the union of the peer sets; Unknown = the complement of own minus that union |
| `Classifier.NoPeers` | src/commands/nohari.rs:147-155 | with no peer entries every count is 0, Facade is the own set and Unknown its complement |
| `Classifier.ArenaIsCorroborated` | src/commands/nohari.rs:156-164 | an Arena count is positive exactly when the trait is self-chosen and some peer chose it; a Blind count exactly when it is not self-chosen and some peer chose it |
| `Classifier.Partition` | src/commands/nohari.rs:147-168 | every vocabulary trait lands in exactly one of Arena at least 1, Blind at least 1, Facade, Unknown |
| `Classifier.AddPeer` | src/commands/nohari.rs:155-164 | one more peer set adds one to the Arena count of each self-chosen trait it holds and to the Blind count of each other trait it holds |
| `Render.Decimal` | src/commands/nohari.rs:188 | a count renders as a non-empty string of decimal digits with no leading zero: one digit exactly below 10, and a leading `0` exactly for the count 0 |
| `Render.DecimalRoundTrip` | src/commands/nohari.rs:188 | reading a rendered count back gives the count |
| `Render.CountLine` | src/commands/nohari.rs:186-194 | the closure emits a line exactly when the count is at least 1; for 1 the line is the bare trait name, and above 1 it is the name, ` (`, the count's decimal digits and `)` |
| `Render.LineRoundTrip` | src/commands/nohari.rs:186-194 | for an identifier name and a count of at least 1, the name and the count can be read back from the line, so distinct counts render to distinct lines |
| `Render.CountLines` | src/commands/nohari.rs:184-195 | the `filter_map` emits no more lines than entries, and a line is emitted exactly when some entry with a positive count renders to it |
| `Render.CountLinesSingle` | src/commands/nohari.rs:186-194 | one entry gives exactly its count line when its count is positive, and no line otherwise |
| `Render.CountLinesAppend` | src/commands/nohari.rs:184-195 | the lines of consecutive entries are the lines of each part in order, so with `CountLinesSingle` there is one line per positive entry, in entry order |
| `Render.Join` | src/commands/nohari.rs:195 | `join("\n")` is empty exactly for no lines or one empty line, and starts with the first line; `Render.SplitJoin` shows nothing is lost |
| `Render.SplitJoin` | src/commands/nohari.rs:195 | joining lines without line breaks by `"\n"` loses nothing: splitting gives the lines back |
| `Render.Field` | src/commands/nohari.rs:169-175 | `empty_or` gives `N/A` for an empty body and otherwise the body fenced between the `fix` opening and the closing fence, recoverable from the fence |
| `Render.FieldEmpty` | src/commands/nohari.rs:169-175 | a field reads `N/A` exactly when it has no lines to show |
| `Render.Entries` | src/commands/nohari.rs:184-185 | iterating the count map, which holds every vocabulary name, in an order that visits each position once yields one entry per name, and an entry occurs exactly when it pairs a vocabulary name with that name's count |
| `Render.EntriesOnce` | src/commands/nohari.rs:184-185 | over a vocabulary without repeats, no entry occurs twice in the iteration |
| `Render.VisitsOnce` | src/commands/nohari.rs:184-185 | an iteration order that reaches every one of the `n` positions in `n` steps never repeats a position |
| `Render.RenderWindow` | src/commands/nohari.rs:181-222 | each of the four fields is `N/A` or a fenced `fix` block; `Render.WindowFieldsEmpty` says exactly when each is `N/A` |
| `Render.CountFieldEmpty` | src/commands/nohari.rs:181-198 | a count field reads `N/A` exactly when every count is 0, whatever order the map is iterated in |
| `Render.NameFieldEmpty` | src/commands/nohari.rs:217-222 | a Facade or Unknown field reads `N/A` exactly when the set holds no defined flag |
| `Render.ArenaAllZero` | src/commands/nohari.rs:156-161 | every Arena count is 0 exactly when no self-chosen trait was chosen by a peer |
| `Render.BlindAllZero` | src/commands/nohari.rs:157-164 | every Blind count is 0 exactly when no trait outside the own set was chosen by a peer |
| `Render.ArenaFieldEmpty` | src/commands/nohari.rs:181-198 | the Arena field reads `N/A` exactly when no self-chosen trait was chosen by a peer |
| `Render.BlindFieldEmpty` | src/commands/nohari.rs:199-216 | the Blind field reads `N/A` exactly when no other trait was chosen by a peer |
| `Render.WindowFieldsEmpty` | src/commands/nohari.rs:177-222 | each of the four fields (identical at src/commands/johari.rs:179-224) reads `N/A` exactly when its part of the window is empty |
| `Group.Lookup` | soshari_macros/tests/01-simple-proc.rs:24-31 | `get` finds the first record with the id, or none exactly when no record has it |
| `Group.Get` | soshari_macros/tests/01-simple-proc.rs:24-31 | `get`/`get_mut` return a record of the group with the id exactly when lookup finds one, and none exactly when no record has the id |
| `Group.ResolveTarget` | src/commands/nohari.rs:72-100 | the target checks refuse a self-target first, then a target without a record, and nothing else; a successful peer target is the first matching record, which is not the submitter's |
| `Group.AppendPeer` | src/commands/nohari.rs:104-109 | a peer entry goes at the end of one record's entries; its id and own set, and every other record, are unchanged |
| `Group.Start` | src/commands/nohari.rs:72-116 | a target equal to the submitter is refused as a self-contribution, a target without a record as unknown, and nothing else is refused; no target pushes a new record; a peer submission appends one entry to the first matching record and changes nothing else (identical at src/commands/johari.rs:74-118) |
| `Group.Query` | src/commands/nohari.rs:132-168 | `query` yields a window exactly when a record has the id, and then it is the closed-form window of the first such record's own set and peer entries, with one count per vocabulary name |
| `Group.StartKeepsValid` | src/commands/nohari.rs:104-116 | submissions store only flag sets of the vocabulary |
| `Group.SelfAssessmentShadowed` | src/commands/nohari.rs:110-116 | a second self-assessment adds a record but changes neither what `get` finds nor the window |
| `Group.FirstSelfAssessment` | src/commands/nohari.rs:110-116 | a first self-assessment creates the record `get` then finds, with the chosen set and no peer entries |
| `Group.LookupExtend` | soshari_macros/tests/01-simple-proc.rs:29 | pushing a record changes the lookup only for an id that had no record |
| `Group.LookupAfterAppend` | src/commands/nohari.rs:84-105 | a peer submission leaves the target at the same record |
| `Group.PeerSubmissionCounts` | src/commands/nohari.rs:104-164 | a peer submission adds one to the target's Arena count of each self-chosen trait picked and one to the Blind count of each other trait picked |
| `Group.RepeatedPeerSubmission` | src/commands/nohari.rs:104-109 | peer entries are not deduplicated: the same submission twice counts twice |
| `Examples.SeparatedNames` | soshari_macros/src/lib.rs:11-20 | a comma-separated list of names yields exactly those names, in order |
| `Examples.TestVocabulary` | soshari_macros/tests/01-simple-proc.rs:4-6 | the input `a, b, c, d` gives the vocabulary a, b, c, d |
| `Examples.TestNames` | soshari_macros/tests/01-simple-proc.rs:34 | the flags of a, b and c read back as a, b, c |
| `Examples.ThreeTraitStore` | src/commands/nohari.rs:72-116 | a self-assessment followed by two peer submissions leaves one record with both entries, in submission order |
| `Examples.ThreeTraitWindow` | src/commands/nohari.rs:147-168 | that record's window has brave twice in Arena, shy once in Blind, calm in Facade and nothing Unknown |
| `Examples.NoPeerWindow` | src/commands/nohari.rs:147-155 | a lone self-assessment of calm leaves brave and shy Unknown, calm in Facade and every count at 0 |

## Left out

- Discord plumbing: command registration and dispatch, the async `run` scaffolding, embed
  construction, role colours, HTTP responses and error embeds. These are network and UI.
  A refusal is modelled as a `Rejection` value, not as a message sent.
- The interactive picker `menu_get` and its minimum selection counts (3 for `/nohari`,
  5 for `/johari`). It is interactive I/O, so its result is a free parameter: any list of
  names.
- Loading and saving `nohari.json` / `johari.json`, and the `unwrap` panics around them.
  These are file I/O and serde. The model's `Start` returns the group that would be saved;
  a refused submission returns no group, since the source returns before saving.
- The `#[adjectives]` attribute macro that both commands use (src/commands/nohari.rs:20,
  src/commands/johari.rs:19) is not part of this model, because its body is not available.
  The model assumes it generates the same encoding as `generate_adjectives!`, namely:
  - `NohariAdjectives::adjectives()` / `JohariAdjectives::adjectives()` is the vocabulary in
    attribute order, with the i-th name owning bit `1 << i`;
  - `selected.into()` is `adjectives_to_bitflags` (`Vocabulary.ToFlags`);
  - `as_adjectives()` is `bitflags_to_adjectives` (`Vocabulary.ToNames`);
  - the flag type is a `bitflags` type, so `!` and `complement()` drop undefined bits
    (`Flags.Complement`);
  - the group's `get`, `get_mut` and `push` work on a list searched for the first matching
    id, after the commented prototype in the macro's test (`Group.Lookup`).
- Proc-macro mechanics: the `quote!` output and the upper-case constant names. Two names
  that differ only in case would make clashing constants. The model requires distinct names
  instead.
- The `u64` flag word is modelled as the set of its bit positions, so `&`, `|` and `&=`
  are set operations. The truncating `!` and `complement()` are the complement within the
  vocabulary. A flag set read from a hand-edited file could carry bits outside the
  vocabulary. Facade keeps such bits only when there are no peer entries (the truncating `!`
  never runs), and the closed form in `Classifier.Expected` says so.
- The order of Arena and Blind lines. These come from a `HashMap`, whose iteration order is
  unspecified. It is a parameter of `Render.Entries`: any order that visits each position once.
- Kinds.VocabularySizes: states only the sizes of the two concrete vocabularies. That the
  55 and 49 names are distinct identifiers is checked by the Rust compiler, but it is not
  proved here, because the solver cannot decide it for literals of that size. The generic
  lemmas take it as a precondition (`Distinct`, `WellFormed`).
- Render.LineRoundTrip: assumes trait names are identifiers without spaces or
  parentheses. Raw identifiers (`r#name`) are not modelled. The reader it uses is lenient: it
  recovers the name and the count but does not reject other text, so the exact line format is
  stated by `Render.CountLine`'s contract, not by the round trip.
- Vocabulary.IsIdentifier: accepts ASCII identifiers only. Rust also accepts non-ASCII
  identifiers (such as `café`), so `WellFormed`, which the rendering lemmas require, excludes
  some vocabularies the macro accepts. Both real vocabularies are ASCII.
- Counts are unbounded naturals. `usize` overflow would need more peer entries than
  memory holds.
- Concurrency: separate invocations each load, change and save the same file and can lose
  updates. The model treats each submission as one step on a group value.
- The `query` option plumbing: a non-subcommand value gets the "unreachable state" error
  (src/commands/nohari.rs:121-131), and an empty option list panics at the `unwrap`
  (src/commands/nohari.rs:122). This is Discord option handling, so `Query` takes the user
  id directly. Only a user without a record (src/commands/nohari.rs:132, 232-239) is
  modelled, as `Query` returning `None`.

=== FILE: classifier.dfy ===
/**
 The window computed by the `query` subcommand of both `/johari` and `/nohari`: from a
 subject's own flag set and the flag sets their peers chose for them, per-trait Arena and
 Blind counts and the Facade and Unknown flag sets.  The two commands run the same loop
 over different vocabularies, so it is stated once for a vocabulary of `n` names.
 */
module Classifier {
  import opened Flags

  /** The four parts of a window over a vocabulary of `n` names (counts indexed by position). */
  datatype Window = Window(arena: seq<nat>, blind: seq<nat>, facade: FlagSet, unknown: FlagSet)

  /** How many of the peer sets contain trait `t`. */
  function Count(peers: seq<FlagSet>, t: nat): (c: nat)
    ensures c <= |peers|
  {
    if peers == [] then 0
    else Count(peers[..|peers| - 1], t) + (if t in peers[|peers| - 1] then 1 else 0)
  }

  /** Every trait some peer has chosen. */
  function Seen(peers: seq<FlagSet>): (u: FlagSet)
    ensures forall p :: p in peers ==> p <= u
  {
    if peers == [] then {}
    else
      var init := peers[..|peers| - 1];
      assert forall p :: p in peers ==> p in init || p == peers[|peers| - 1] by {
        assert peers == init + [peers[|peers| - 1]];
      }
      Seen(init) + peers[|peers| - 1]
  }

  /** A trait is counted by some peer exactly when some peer chose it. */
  lemma {:induction false} CountPositive(peers: seq<FlagSet>, t: nat)
    ensures Count(peers, t) > 0 <==> t in Seen(peers)
  {
    if peers != [] {
      CountPositive(peers[..|peers| - 1], t);
    }
  }

  /** One more peer set adds one to the count of each trait it holds and nothing else. */
  lemma CountAppend(peers: seq<FlagSet>, p: FlagSet, t: nat)
    ensures Count(peers + [p], t) == Count(peers, t) + (if t in p then 1 else 0)
    ensures Seen(peers + [p]) == Seen(peers) + p
  {
    assert (peers + [p])[..|peers|] == peers;
  }

  /**
   The window in closed form.  Arena counts a self-chosen trait once per peer choosing it,
   Blind does the same for a trait not self-chosen, Facade keeps the self-chosen traits no
   peer chose and Unknown the defined traits chosen by nobody.  Only when there are no peers
   does Facade keep the raw own set, including any undefined bit (the loop's truncating `!`
   never runs).
   */
  function Expected(n: nat, own: FlagSet, peers: seq<FlagSet>): Window
  {
    Window(
      seq(n, t requires 0 <= t => if t in own then Count(peers, t) else 0),
      seq(n, t requires 0 <= t => if t in own then 0 else Count(peers, t)),
      if peers == [] then own else own * Universe(n) - Seen(peers),
      Complement(own, n) - Seen(peers))
  }

  /**
   The `as_adjectives` loop that bumps a counter: every defined trait of `s` gets one more,
   every other counter is left alone.
   */
  method Bump(counts: seq<nat>, s: FlagSet) returns (r: seq<nat>)
    ensures |r| == |counts|
    ensures forall t :: 0 <= t < |counts| ==> r[t] == counts[t] + (if t in s then 1 else 0)
  {
    r := counts;
    var t := 0;
    while t < |counts|
      invariant 0 <= t <= |counts| && |r| == |counts|
      invariant forall u :: 0 <= u < t ==> r[u] == counts[u] + (if u in s then 1 else 0)
      invariant forall u :: t <= u < |counts| ==> r[u] == counts[u]
    {
      if t in s {
        r := r[t := r[t] + 1];
      }
      t := t + 1;
    }
  }

  /**
   The classifier loop of `query`: counters start at zero, Facade at the own set and Unknown
   at its complement; each peer set then bumps Arena on `own & other` and Blind on
   `!own & other`, clears `arena | blind` from Facade and clears the peer set from Unknown.
   */
  method Classify(n: nat, own: FlagSet, peers: seq<FlagSet>) returns (w: Window)
    ensures w == Expected(n, own, peers)
  {
    var arena := seq(n, t => 0);
    var blind := arena;
    var facade := own;
    var unknown := Complement(own, n);
    var k := 0;
    while k < |peers|
      invariant 0 <= k <= |peers|
      invariant CountsSoFar(n, own, peers[..k], arena, blind)
      invariant SetsSoFar(n, own, peers[..k], facade, unknown)
    {
      var other := peers[k];
      var arenaFlags := own * other;
      var blindFlags := Complement(own, n) * other;
      var arena' := Bump(arena, arenaFlags);
      var blind' := Bump(blind, blindFlags);
      var facade' := facade * Complement(arenaFlags + blindFlags, n);
      var unknown' := unknown * Complement(other, n);
      CountsStep(n, own, other, peers[..k], arena, blind, arena', blind');
      SetsStep(n, own, other, peers[..k], facade, unknown);
      assert peers[..k + 1] == peers[..k] + [other];
      arena, blind, facade, unknown := arena', blind', facade', unknown';
      k := k + 1;
    }
    assert peers[..k] == peers;
    Finished(n, own, peers, arena, blind, facade, unknown);
    w := Window(arena, blind, facade, unknown);
  }

  /** The counters after the peer sets `done`: Arena and Blind hold the closed-form counts. */
  predicate CountsSoFar(n: nat, own: FlagSet, done: seq<FlagSet>, arena: seq<nat>, blind: seq<nat>)
  {
    && |arena| == n && |blind| == n
    && (forall t :: 0 <= t < n ==> arena[t] == if t in own then Count(done, t) else 0)
    && (forall t :: 0 <= t < n ==> blind[t] == if t in own then 0 else Count(done, t))
  }

  /** Facade and Unknown after the peer sets `done`, in closed form. */
  predicate SetsSoFar(n: nat, own: FlagSet, done: seq<FlagSet>, facade: FlagSet, unknown: FlagSet)
  {
    && facade == (if done == [] then own else own * Universe(n) - Seen(done))
    && unknown == Complement(own, n) - Seen(done)
  }

  /** One peer set bumped into the counters keeps the counters equal to the closed-form counts. */
  lemma CountsStep(n: nat, own: FlagSet, other: FlagSet, done: seq<FlagSet>,
                   arena: seq<nat>, blind: seq<nat>, arena': seq<nat>, blind': seq<nat>)
    requires CountsSoFar(n, own, done, arena, blind)
    requires |arena'| == n && |blind'| == n
    requires forall t :: 0 <= t < n ==> arena'[t] == arena[t] + (if t in own * other then 1 else 0)
    requires forall t :: 0 <= t < n ==> blind'[t] == blind[t] + (if t in Complement(own, n) * other then 1 else 0)
    ensures CountsSoFar(n, own, done + [other], arena', blind')
  {
    forall t | 0 <= t < n
      ensures Count(done + [other], t) == Count(done, t) + (if t in other then 1 else 0)
    {
      CountAppend(done, other, t);
    }
  }

  /**
   One peer set cleared from Facade (through `arena | blind`) and from Unknown keeps both
   equal to their closed forms.
   */
  lemma SetsStep(n: nat, own: FlagSet, other: FlagSet, done: seq<FlagSet>,
                 facade: FlagSet, unknown: FlagSet)
    requires SetsSoFar(n, own, done, facade, unknown)
    ensures SetsSoFar(n, own, done + [other],
                      facade * Complement(own * other + Complement(own, n) * other, n),
                      unknown * Complement(other, n))
  {
    CountAppend(done, other, 0);
  }

  /** Once every peer set is in, the accumulated parts are the closed-form window. */
  lemma Finished(n: nat, own: FlagSet, peers: seq<FlagSet>, arena: seq<nat>, blind: seq<nat>,
                 facade: FlagSet, unknown: FlagSet)
    requires CountsSoFar(n, own, peers, arena, blind)
    requires SetsSoFar(n, own, peers, facade, unknown)
    ensures Window(arena, blind, facade, unknown) == Expected(n, own, peers)
  {
    var e := Expected(n, own, peers);
    assert arena == e.arena;
    assert blind == e.blind;
  }

  /** With no peer entries: Facade is the own set, Unknown its complement, and every count is 0. */
  lemma NoPeers(n: nat, own: FlagSet)
    ensures Expected(n, own, []) == Window(seq(n, t => 0), seq(n, t => 0), own, Complement(own, n))
  {
  }

  /** The traits counted in Arena are the self-chosen traits some peer also chose. */
  lemma ArenaIsCorroborated(n: nat, own: FlagSet, peers: seq<FlagSet>, t: nat)
    requires t < n
    ensures Expected(n, own, peers).arena[t] > 0 <==> t in own && t in Seen(peers)
    ensures Expected(n, own, peers).blind[t] > 0 <==> t !in own && t in Seen(peers)
  {
    CountPositive(peers, t);
  }

  /** Arena, Blind, Facade and Unknown each hold one of the four ways a defined trait can fall. */
  predicate InArena(w: Window, t: nat)
  {
    t < |w.arena| && w.arena[t] >= 1
  }

  predicate InBlind(w: Window, t: nat)
  {
    t < |w.blind| && w.blind[t] >= 1
  }

  /**
   Every trait of a vocabulary of `n` names lands in exactly one of: Arena count at least 1,
   Blind count at least 1, Facade, Unknown.
   */
  lemma Partition(n: nat, own: FlagSet, peers: seq<FlagSet>, t: nat)
    requires t < n
    ensures var w := Expected(n, own, peers);
      InArena(w, t) || InBlind(w, t) || t in w.facade || t in w.unknown
    ensures var w := Expected(n, own, peers);
      && !(InArena(w, t) && InBlind(w, t))
      && !(InArena(w, t) && t in w.facade)
      && !(InArena(w, t) && t in w.unknown)
      && !(InBlind(w, t) && t in w.facade)
      && !(InBlind(w, t) && t in w.unknown)
      && !(t in w.facade && t in w.unknown)
  {
    CountPositive(peers, t);
  }

  /**
   A further peer set adds one to the Arena count of each self-chosen trait it holds and one
   to the Blind count of each other trait it holds.
   */
  lemma AddPeer(n: nat, own: FlagSet, peers: seq<FlagSet>, p: FlagSet, t: nat)
    requires t < n
    ensures Expected(n, own, peers + [p]).arena[t]
         == Expected(n, own, peers).arena[t] + (if t in own && t in p then 1 else 0)
    ensures Expected(n, own, peers + [p]).blind[t]
         == Expected(n, own, peers).blind[t] + (if t !in own && t in p then 1 else 0)
  {
    CountAppend(peers, p, t);
  }
}

=== FILE: examples.dfy ===
/**
 Worked examples: the macro test's four-name vocabulary, and a three-trait window built
 through `start` submissions and read back through `query`.
 */
module Examples {
  import opened Wrappers
  import opened Flags
  import opened Vocabulary
  import opened Classifier
  import opened Group

  /** The tokens of `generate_adjectives! { a, b, c, d }`. */
  const TestTokens: seq<Token> :=
    [Ident("a"), Punct(','), Ident("b"), Punct(','), Ident("c"), Punct(','), Ident("d")]

  /** Extraction reads one token at a time: an identifier contributes its name, anything else nothing. */
  lemma AdjectivesCons(tok: Token, rest: seq<Token>)
    ensures Adjectives([tok] + rest) == (if tok.Ident? then [tok.name] else []) + Adjectives(rest)
  {
    assert ([tok] + rest)[1..] == rest;
  }

  /** A name followed by a comma contributes just the name. */
  lemma AdjectivesPair(x: string, rest: seq<Token>)
    ensures Adjectives([Ident(x), Punct(',')] + rest) == [x] + Adjectives(rest)
  {
    AdjectivesCons(Ident(x), [Punct(',')] + rest);
    AdjectivesCons(Punct(','), rest);
    assert [Ident(x), Punct(',')] + rest == [Ident(x)] + ([Punct(',')] + rest);
  }

  /** The macro input written the usual way: the names separated by commas. */
  function Separated(names: seq<string>): (tokens: seq<Token>)
    ensures names == [] <==> tokens == []
  {
    if names == [] then []
    else if |names| == 1 then [Ident(names[0])]
    else [Ident(names[0]), Punct(',')] + Separated(names[1..])
  }

  /** A comma-separated list of names yields exactly those names, in order. */
  lemma {:induction false} SeparatedNames(names: seq<string>)
    ensures Adjectives(Separated(names)) == names
  {
    if |names| == 1 {
      AdjectivesCons(Ident(names[0]), []);
      assert [Ident(names[0])] + [] == [Ident(names[0])];
    } else if |names| > 1 {
      SeparatedNames(names[1..]);
      AdjectivesPair(names[0], Separated(names[1..]));
    }
  }

  /** The macro test's vocabulary: the four identifiers, the commas dropped. */
  lemma TestVocabulary()
    ensures Adjectives(TestTokens) == ["a", "b", "c", "d"]
  {
    var names := ["a", "b", "c", "d"];
    assert names[1..] == ["b", "c", "d"] && names[1..][1..] == ["c", "d"] && names[1..][1..][1..] == ["d"];
    assert Separated(names) == TestTokens;
    SeparatedNames(names);
  }

  /** The macro test's use: `A | B | C` reads back as `a`, `b`, `c`. */
  lemma TestNames()
    ensures ToNames(["a", "b", "c", "d"], {0, 1, 2}) == ["a", "b", "c"]
  {
    var v := ["a", "b", "c", "d"];
    var s: FlagSet := {0, 1, 2};
    assert NamesBelow(v, s, 1) == ["a"];
    assert NamesBelow(v, s, 2) == ["a", "b"];
    assert NamesBelow(v, s, 3) == ["a", "b", "c"];
  }

  const Traits: seq<string> := ["brave", "calm", "shy"]

  lemma TraitsDistinct()
    ensures Distinct(Traits)
  {
  }

  /** The flag sets of the three selections of the example. */
  lemma ExampleFlags()
    ensures ToFlags(Traits, ["brave", "calm"]) == {0, 1}
    ensures ToFlags(Traits, ["brave", "shy"]) == {0, 2}
    ensures ToFlags(Traits, ["brave"]) == {0}
  {
    TraitsDistinct();
    var own := ToFlags(Traits, ["brave", "calm"]);
    assert forall i: nat :: i in own <==> i == 0 || i == 1;
    var pa := ToFlags(Traits, ["brave", "shy"]);
    assert forall i: nat :: i in pa <==> i == 0 || i == 2;
    var pb := ToFlags(Traits, ["brave"]);
    assert forall i: nat :: i in pb <==> i == 0;
  }

  /** The three submissions of the example leave one record with two peer entries. */
  lemma ThreeTraitStore()
    ensures var g1 := Start(Traits, [], 1, None, ["brave", "calm"]);
      && g1.Success?
      && var g2 := Start(Traits, g1.value, 2, Some(1), ["brave", "shy"]);
      && g2.Success?
      && var g3 := Start(Traits, g2.value, 3, Some(1), ["brave"]);
      && g3.Success?
      && g3.value == [Subject(1, {0, 1}, [Peer(2, {0, 2}), Peer(3, {0})])]
  {
    TraitsDistinct();
    ExampleFlags();
    var own, pa, pb := {0, 1}, {0, 2}, {0};
    var g1 := Start(Traits, [], 1, None, ["brave", "calm"]).value;
    assert g1 == [Subject(1, own, [])];
    assert Lookup(g1, 1) == Some(0);
    var g2 := Start(Traits, g1, 2, Some(1), ["brave", "shy"]).value;
    var none: seq<Peer> := [];
    assert none + [Peer(2, pa)] == [Peer(2, pa)];
    assert |g2| == 1 && g2[0] == Subject(1, own, [Peer(2, pa)]);
    assert g2 == [g2[0]];
    assert Lookup(g2, 1) == Some(0);
    var g3 := Start(Traits, g2, 3, Some(1), ["brave"]).value;
    assert [Peer(2, pa)] + [Peer(3, pb)] == [Peer(2, pa), Peer(3, pb)];
    assert |g3| == 1 && g3[0] == Subject(1, own, [Peer(2, pa), Peer(3, pb)]);
    assert g3 == [g3[0]];
  }

  /**
   Subject 1 picks brave and calm; subject 2 then picks brave and shy for them and
   subject 3 picks brave.  Arena: brave twice; Blind: shy once; Facade: calm; Unknown: none.
   */
  lemma ThreeTraitWindow()
    ensures Query(Traits, [Subject(1, {0, 1}, [Peer(2, {0, 2}), Peer(3, {0})])], 1)
         == Some(Window([2, 0, 0], [0, 0, 1], {1}, {}))
  {
    var g: Store := [Subject(1, {0, 1}, [Peer(2, {0, 2}), Peer(3, {0})])];
    assert Lookup(g, 1) == Some(0);
    var pa: FlagSet := {0, 2};
    var pb: FlagSet := {0};
    var peers := PeerSets(g[0].others);
    assert peers == [pa, pb];
    var nobody: seq<FlagSet> := [];
    assert [pa, pb][..1] == [pa] && [pa][..0] == nobody;
    assert Seen([pa]) == pa;
    assert Seen(peers) == {0, 2};
    assert Count([pa], 0) == 1 && Count([pa], 2) == 1 && Count([pa], 1) == 0;
    assert Count(peers, 0) == 2 && Count(peers, 2) == 1;
    var w := Expected(3, {0, 1}, peers);
    assert w.arena == [2, 0, 0];
    assert w.blind == [0, 0, 1];
    assert Complement({0, 1}, 3) == {2};
    assert {0, 1} * Universe(3) == {0, 1};
    assert w.facade == {1} && w.unknown == {};
    assert Get(g, 1) == Some(g[0]) && |Traits| == 3;
  }

  /** With no peer entries yet, a self-choice of calm leaves brave and shy Unknown. */
  lemma NoPeerWindow()
    ensures var g1 := Start(Traits, [], 1, None, ["calm"]);
      && g1.Success?
      && Query(Traits, g1.value, 1) == Some(Window([0, 0, 0], [0, 0, 0], {1}, {0, 2}))
  {
    TraitsDistinct();
    var own := ToFlags(Traits, ["calm"]);
    assert own == {1} by {
      assert forall i: nat :: i in own <==> i == 1;
    }
    NoPeers(3, own);
    var g1 := Start(Traits, [], 1, None, ["calm"]).value;
    assert g1 == [Subject(1, own, [])];
    assert Lookup(g1, 1) == Some(0);
    assert PeerSets([]) == [];
    assert Complement(own, 3) == {0, 2};
    assert seq(3, t => 0) == [0, 0, 0];
  }
}

=== FILE: flags.dfy ===
/**
 The flag sets of a generated `Adjectives` type.  The backing `u64` is represented by the
 set of its bit positions: position `i` stands for the flag `1 << i`.  A type generated from
 `n` names defines the flags `0 .. n-1`; the bitflags `!` and `complement()` operators
 truncate to those, while `&`, `|` and `&=` act on the raw bits.
 */
module Flags {

  /** Number of bits in the backing word (`struct Adjectives: u64`). */
  const Width: nat := 64

  /** A flag word, as the set of its set bit positions. */
  type FlagSet = set<nat>

  /** `Adjectives::all()` for a type with `n` flags. */
  function Universe(n: nat): (u: FlagSet)
    ensures forall i: nat :: i in u <==> i < n
  {
    if n == 0 then {} else Universe(n - 1) + {n - 1}
  }

  /** `all()` has exactly `n` flags. */
  lemma UniverseSize(n: nat)
    ensures |Universe(n)| == n
  {
    AllBelow(n, n);
    BelowCount(Universe(n), n);
    assert Universe(n) == Below(Universe(n), n);
  }

  /** Every position below `k <= n` is a flag of `all()`, so all `k` of them are counted. */
  lemma {:induction false} AllBelow(n: nat, k: nat)
    requires k <= n
    ensures SetBelow(Universe(n), k) == k
  {
    if k > 0 {
      AllBelow(n, k - 1);
    }
  }

  /** The number of set flags below `k`, counted one position at a time. */
  function SetBelow(s: FlagSet, k: nat): nat
  {
    if k == 0 then 0 else SetBelow(s, k - 1) + (if k - 1 in s then 1 else 0)
  }

  /** The set flags below `k`, as a comprehension that is cheap to count. */
  function Below(s: FlagSet, k: nat): FlagSet
  {
    set i | i in s && i < k
  }

  lemma {:induction false} BelowCount(s: FlagSet, k: nat)
    ensures SetBelow(s, k) == |Below(s, k)|
    decreases k
  {
    if k > 0 {
      BelowCount(s, k - 1);
      BelowStep(s, k);
    } else {
      assert Below(s, 0) == {};
    }
  }

  /** Restricting to one more position adds that position when it is set, and only then. */
  lemma BelowStep(s: FlagSet, k: nat)
    requires k > 0
    ensures |Below(s, k)| == |Below(s, k - 1)| + (if k - 1 in s then 1 else 0)
  {
    var prev := Below(s, k - 1);
    if k - 1 in s {
      assert Below(s, k) == prev + {k - 1};
    } else {
      assert Below(s, k) == prev;
    }
  }

  /** Whether every set bit is one of the `n` defined flags (`from_bits` would accept it). */
  predicate Defined(s: FlagSet, n: nat)
  {
    forall i :: i in s ==> i < n
  }

  /** `!s` / `s.complement()`: the defined flags that are not in `s`. */
  function Complement(s: FlagSet, n: nat): (r: FlagSet)
    ensures Defined(r, n)
    ensures forall i: nat :: i < n ==> (i in r <==> i !in s)
  {
    Universe(n) - s
  }
}

=== FILE: group.dfy ===
/**
 The in-memory group behind `/johari` and `/nohari` (`JohariGroup`, `NohariGroup`): a list
 of subject records, each with the subject's own flag set and the peer entries others
 submitted about them.  The `start` subcommand records a submission; `query` classifies the
 record of a subject.
 */
module Group {
  import opened Wrappers
  import opened Flags
  import opened Vocabulary
  import opened Classifier

  /** Discord user ids are `u64`. */
  const IdBound: int := 0x1_0000_0000_0000_0000

  type UserId = x: int | 0 <= x < IdBound

  /**
   A peer entry: who submitted it and the flags they chose.  Entries are stored as full
   records, but every write gives them an empty `others`, so the nested list is not kept.
   */
  datatype Peer = Peer(id: UserId, traits: FlagSet)

  /** A subject record: id, own flag set, and the peer entries about the subject in submission order. */
  datatype Subject = Subject(id: UserId, traits: FlagSet, others: seq<Peer>)

  type Store = seq<Subject>

  /** Why `start` refuses a submission. */
  datatype Rejection =
    | SelfContribution   // "You cannot contribute to yourself!"
    | UnknownTarget      // "Cannot find user in the ... database"

  /** `get` / `get_mut`: the position of the first record with the given id. */
  function Lookup(g: Store, id: UserId): (r: Option<nat>)
    ensures r.Some? ==> r.value < |g| && g[r.value].id == id
    ensures r.Some? ==> forall j :: 0 <= j < r.value ==> g[j].id != id
    ensures r.None? <==> forall j :: 0 <= j < |g| ==> g[j].id != id
  {
    if g == [] then None
    else if g[0].id == id then Some(0)
    else match Lookup(g[1..], id)
      case None => None
      case Some(i) => Some(i + 1)
  }

  function Get(g: Store, id: UserId): (r: Option<Subject>)
    ensures r.Some? <==> Lookup(g, id).Some?
    ensures r.Some? ==> r.value in g && r.value.id == id
    ensures r.None? <==> forall s :: s in g ==> s.id != id
  {
    match Lookup(g, id)
    case None => None
    case Some(i) => Some(g[i])
  }

  /**
   The checks `start` makes before the picker opens: no target means a self-assessment;
   a target equal to the submitter, or one without a record, is refused.
   */
  function ResolveTarget(g: Store, submitter: UserId, target: Option<UserId>): (r: Result<Option<nat>, Rejection>)
    ensures r.Failure? <==> target.Some? && (target.value == submitter || Lookup(g, target.value).None?)
    ensures r.Failure? ==> r.error == if target.value == submitter then SelfContribution else UnknownTarget
    ensures r.Success? ==> r.value == if target.None? then None else Lookup(g, target.value)
    ensures r.Success? && r.value.Some? ==> r.value.value < |g| && g[r.value.value].id != submitter
  {
    match target
    case None => Success(None)
    case Some(t) =>
      if t == submitter then Failure(SelfContribution)
      else match Lookup(g, t)
        case None => Failure(UnknownTarget)
        case Some(i) => Success(Some(i))
  }

  /** A peer entry appended to the record at `i`; nothing else changes. */
  function AppendPeer(g: Store, i: nat, entry: Peer): (r: Store)
    requires i < |g|
    ensures |r| == |g|
    ensures r[i].id == g[i].id && r[i].traits == g[i].traits
    ensures r[i].others == g[i].others + [entry]
    ensures forall j :: 0 <= j < |g| && j != i ==> r[j] == g[j]
  {
    g[i := g[i].(others := g[i].others + [entry])]
  }

  /**
   The `start` subcommand on a group, given the names the picker returned.  A refused
   submission changes nothing and the group is not saved; otherwise the returned group is
   the one saved.  A peer submission is appended to the target's entries; a self-assessment
   is pushed as a new record even when the submitter already has one.
   */
  function Start(v: seq<string>, g: Store, submitter: UserId, target: Option<UserId>,
                 selected: seq<string>): (r: Result<Store, Rejection>)
    requires Distinct(v)
    ensures r.Failure? <==> target.Some? && (target.value == submitter || Lookup(g, target.value).None?)
    ensures r.Failure? ==> r.error == if target.value == submitter then SelfContribution else UnknownTarget
    ensures target.None? ==> r == Success(g + [Subject(submitter, ToFlags(v, selected), [])])
    ensures r.Success? && target.Some? ==>
      var i := Lookup(g, target.value).value;
      && |r.value| == |g|
      && r.value[i] == g[i].(others := g[i].others + [Peer(submitter, ToFlags(v, selected))])
      && forall j :: 0 <= j < |g| && j != i ==> r.value[j] == g[j]
  {
    match ResolveTarget(g, submitter, target)
    case Failure(e) => Failure(e)
    case Success(slot) =>
      var traits := ToFlags(v, selected);
      match slot
      case Some(i) => Success(AppendPeer(g, i, Peer(submitter, traits)))
      case None => Success(g + [Subject(submitter, traits, [])])
  }

  /** The peer flag sets of a record, in submission order. */
  function PeerSets(others: seq<Peer>): (ps: seq<FlagSet>)
    ensures |ps| == |others|
    ensures forall k :: 0 <= k < |others| ==> ps[k] == others[k].traits
  {
    seq(|others|, k requires 0 <= k < |others| => others[k].traits)
  }

  /** `query`: the window of the first record with the given id, if there is one. */
  function Query(v: seq<string>, g: Store, id: UserId): (r: Option<Window>)
    ensures r.Some? <==> Lookup(g, id).Some?
    ensures r.Some? ==>
      var s := g[Lookup(g, id).value];
      s.id == id && r.value == Expected(|v|, s.traits, PeerSets(s.others))
    ensures r.Some? ==> |r.value.arena| == |v| && |r.value.blind| == |v|
  {
    match Get(g, id)
    case None => None
    case Some(s) => Some(Expected(|v|, s.traits, PeerSets(s.others)))
  }

  /** Every flag set in the group is one of the vocabulary's. */
  predicate Valid(g: Store, n: nat)
  {
    forall i :: 0 <= i < |g| ==>
      && Defined(g[i].traits, n)
      && forall k :: 0 <= k < |g[i].others| ==> Defined(g[i].others[k].traits, n)
  }

  /** Submissions only ever store flag sets of the vocabulary. */
  lemma StartKeepsValid(v: seq<string>, g: Store, submitter: UserId, target: Option<UserId>,
                        selected: seq<string>)
    requires Distinct(v) && Valid(g, |v|)
    requires Start(v, g, submitter, target, selected).Success?
    ensures Valid(Start(v, g, submitter, target, selected).value, |v|)
  {
    var r := Start(v, g, submitter, target, selected).value;
    if target.Some? {
      var i := Lookup(g, target.value).value;
      forall k | 0 <= k < |r[i].others|
        ensures Defined(r[i].others[k].traits, |v|)
      {
        if k < |g[i].others| {
          assert r[i].others[k] == g[i].others[k];
        }
      }
    }
  }

  /**
   A repeated self-assessment does not replace the first: the earlier record is still the
   one found, so `query` keeps showing the first self-assessment.
   */
  lemma SelfAssessmentShadowed(v: seq<string>, g: Store, id: UserId, selected: seq<string>)
    requires Distinct(v) && Lookup(g, id).Some?
    ensures var g' := Start(v, g, id, None, selected).value;
      |g'| == |g| + 1 && Get(g', id) == Get(g, id) && Query(v, g', id) == Query(v, g, id)
  {
    var g' := Start(v, g, id, None, selected).value;
    LookupExtend(g, id, Subject(id, ToFlags(v, selected), []));
  }

  /** A first self-assessment creates the record `query` then finds, with no peer entries. */
  lemma FirstSelfAssessment(v: seq<string>, g: Store, id: UserId, selected: seq<string>)
    requires Distinct(v) && Lookup(g, id).None?
    ensures var g' := Start(v, g, id, None, selected).value;
      Get(g', id) == Some(Subject(id, ToFlags(v, selected), []))
  {
    LookupExtend(g, id, Subject(id, ToFlags(v, selected), []));
  }

  lemma LookupExtend(g: Store, id: UserId, s: Subject)
    ensures Lookup(g + [s], id) == if Lookup(g, id).Some? then Lookup(g, id)
                                  else if s.id == id then Some(|g|) else None
  {
    var g' := g + [s];
    assert forall j :: 0 <= j < |g| ==> g'[j] == g[j];
    match Lookup(g, id)
    case Some(i) =>
      LookupAt(g', id, i);
    case None =>
      if s.id == id {
        LookupAt(g', id, |g|);
      }
  }

  /** The lookup finds index `i` when the record there has the id and no earlier one has. */
  lemma LookupAt(g: Store, id: UserId, i: nat)
    requires i < |g| && g[i].id == id
    requires forall j :: 0 <= j < i ==> g[j].id != id
    ensures Lookup(g, id) == Some(i)
  {
    var r := Lookup(g, id);
    assert r.Some?;
    assert !(r.value < i);
    assert !(r.value > i);
  }

  /** After a peer submission the target is still found at the same record. */
  lemma LookupAfterAppend(g: Store, i: nat, entry: Peer, id: UserId)
    requires Lookup(g, id) == Some(i)
    ensures Lookup(AppendPeer(g, i, entry), id) == Some(i)
  {
  }

  /**
   A peer submission adds one to the target's Arena count of every self-chosen trait the
   submitter picked and one to the Blind count of every other trait they picked.
   */
  lemma PeerSubmissionCounts(v: seq<string>, g: Store, submitter: UserId, target: UserId,
                             selected: seq<string>, t: nat)
    requires Distinct(v) && t < |v|
    requires Start(v, g, submitter, Some(target), selected).Success?
    ensures var before := Query(v, g, target).value;
      var after := Query(v, Start(v, g, submitter, Some(target), selected).value, target).value;
      var own := Get(g, target).value.traits;
      && after.arena[t] == before.arena[t] + (if t in own && v[t] in selected then 1 else 0)
      && after.blind[t] == before.blind[t] + (if t !in own && v[t] in selected then 1 else 0)
  {
    var i := Lookup(g, target).value;
    var entry := Peer(submitter, ToFlags(v, selected));
    LookupAfterAppend(g, i, entry, target);
    var g' := Start(v, g, submitter, Some(target), selected).value;
    assert g' == AppendPeer(g, i, entry);
    assert PeerSets(g'[i].others) == PeerSets(g[i].others) + [entry.traits];
    AddPeer(|v|, g[i].traits, PeerSets(g[i].others), entry.traits, t);
  }

  /**
   Peer entries are not deduplicated: the same submitter submitting the same choice twice
   counts twice.
   */
  lemma RepeatedPeerSubmission(v: seq<string>, g: Store, submitter: UserId, target: UserId,
                               selected: seq<string>, t: nat)
    requires Distinct(v) && t < |v|
    requires Start(v, g, submitter, Some(target), selected).Success?
    ensures var g1 := Start(v, g, submitter, Some(target), selected).value;
      Start(v, g1, submitter, Some(target), selected).Success?
    ensures var g1 := Start(v, g, submitter, Some(target), selected).value;
      var g2 := Start(v, g1, submitter, Some(target), selected).value;
      var own := Get(g, target).value.traits;
      && Query(v, g2, target).value.arena[t]
         == Query(v, g, target).value.arena[t] + (if t in own && v[t] in selected then 2 else 0)
      && Query(v, g2, target).value.blind[t]
         == Query(v, g, target).value.blind[t] + (if t !in own && v[t] in selected then 2 else 0)
  {
    var i := Lookup(g, target).value;
    var g1 := Start(v, g, submitter, Some(target), selected).value;
    LookupAfterAppend(g, i, Peer(submitter, ToFlags(v, selected)), target);
    assert Get(g1, target).value.traits == Get(g, target).value.traits;
    PeerSubmissionCounts(v, g, submitter, target, selected, t);
    PeerSubmissionCounts(v, g1, submitter, target, selected, t);
  }
}

=== FILE: kinds.dfy ===
/**
 The two assessment kinds the bot offers, `/nohari` and `/johari`: the same record, rules
 and classifier over two vocabularies.  The lists are the names given to each command's
 `#[adjectives]` attribute, in flag order; the generic model is instantiated with their sizes.
 */
module Kinds {
  import opened Flags
  import opened Classifier

  /** The `/nohari` vocabulary, in flag order. */
  const NohariAdjectives: seq<string> := [
    "incompetent", "intolerant", "inflexible", "timid", "cowardly", "violent", "aloof",
    "glum", "stupid", "simple", "insecure", "irresponsible", "vulgar", "lethargic",
    "withdrawn", "hostile", "selfish", "unhappy", "unhelpful", "cynical", "needy",
    "unimaginative", "inane", "brash", "cruel", "ignorant", "irrational", "distant",
    "childish", "boastful", "blase", "imperceptive", "chaotic", "impatient", "weak",
    "embarrassed", "loud", "vacuous", "panicky", "unethical", "insensitive",
    "self_satisfied", "passive", "smug", "rash", "dispassionate", "overdramatic", "dull",
    "predictable", "callous", "inattentive", "unreliable", "cold", "foolish", "humourless"
  ]

  /** The `/johari` vocabulary, in flag order. */
  const JohariAdjectives: seq<string> := [
    "accepting", "adaptable", "bold", "brave", "calm", "caring", "cheerful", "confident",
    "dependable", "dignified", "energetic", "extroverted", "friendly", "giving", "happy",
    "helpful", "idealistic", "independent", "ingenious", "intelligent", "introverted",
    "kind", "knowledgeable", "logical", "loving", "mature", "modest", "nervous",
    "observant", "organised", "patient", "proud", "quiet", "reflective", "relaxed",
    "responsive", "self_assertive", "self_conscious", "sensible", "sentimental", "shy",
    "silly", "spontaneous", "sympathetic", "tense", "trustworthy", "warm", "witty", "wise"
  ]

  /** Both vocabularies fit in the `u64` flag word. */
  lemma VocabularySizes()
    ensures |NohariAdjectives| == 55 && |NohariAdjectives| <= Width
    ensures |JohariAdjectives| == 49 && |JohariAdjectives| <= Width
  {
  }

  /** Every `/nohari` trait lands in exactly one part of the window. */
  lemma NohariPartition(own: FlagSet, peers: seq<FlagSet>, t: nat)
    requires t < |NohariAdjectives|
    ensures var w := Expected(|NohariAdjectives|, own, peers);
      && (InArena(w, t) || InBlind(w, t) || t in w.facade || t in w.unknown)
      && !(InArena(w, t) && InBlind(w, t))
      && !((InArena(w, t) || InBlind(w, t)) && (t in w.facade || t in w.unknown))
      && !(t in w.facade && t in w.unknown)
  {
    Partition(|NohariAdjectives|, own, peers, t);
  }

  /** Every `/johari` trait lands in exactly one part of the window. */
  lemma JohariPartition(own: FlagSet, peers: seq<FlagSet>, t: nat)
    requires t < |JohariAdjectives|
    ensures var w := Expected(|JohariAdjectives|, own, peers);
      && (InArena(w, t) || InBlind(w, t) || t in w.facade || t in w.unknown)
      && !(InArena(w, t) && InBlind(w, t))
      && !((InArena(w, t) || InBlind(w, t)) && (t in w.facade || t in w.unknown))
      && !(t in w.facade && t in w.unknown)
  {
    Partition(|JohariAdjectives|, own, peers, t);
  }
}

=== FILE: render.dfy ===
/**
 How `query` turns a window into the text of its four embed fields: a count line per trait
 (omitted at 0, the bare name at 1, `name (n)` above 1), lines joined by line breaks, and a
 field body that is `N/A` when there is nothing to show and a fenced block otherwise.
 */
module Render {
  import opened Wrappers
  import opened Flags
  import opened Vocabulary
  import opened Classifier

  const Digits: string := "0123456789"

  /** Rust's `{n}` for an unsigned count: its decimal digits, most significant first. */
  function Decimal(n: nat): (s: string)
    ensures |s| > 0
    ensures forall k :: 0 <= k < |s| ==> IsDigit(s[k])
    ensures |s| == 1 <==> n < 10
    ensures s[0] == '0' <==> n == 0
    ensures |s| > 1 ==> s[0] != '0'
    decreases n
  {
    if n < 10 then [Digits[n]] else Decimal(n / 10) + [Digits[n % 10]]
  }

  /** The value of a string of decimal digits. */
  function ParseDecimal(s: string): nat
    decreases |s|
  {
    if s == [] then 0
    else
      var c := s[|s| - 1];
      var d := if IsDigit(c) then (c as int) - ('0' as int) else 0;
      ParseDecimal(s[..|s| - 1]) * 10 + d
  }

  /** Reading back a rendered count gives the count. */
  lemma {:induction false} DecimalRoundTrip(n: nat)
    ensures ParseDecimal(Decimal(n)) == n
    decreases n
  {
    var s := Decimal(n);
    if n >= 10 {
      DecimalRoundTrip(n / 10);
      assert s[..|s| - 1] == Decimal(n / 10);
    }
  }

  /** The line a trait with count `n` contributes to the Arena or Blind field, if any. */
  function CountLine(name: string, n: nat): (r: Option<string>)
    ensures r.Some? <==> n >= 1
    ensures r.Some? ==> |name| <= |r.value| && r.value[..|name|] == name
    ensures n == 1 ==> r == Some(name)
    ensures n > 1 ==> |r.value| == |name| + 3 + |Decimal(n)|
    ensures n > 1 ==> r.value[|name|..|name| + 2] == " (" && r.value[|r.value| - 1] == ')'
    ensures n > 1 ==> r.value[|name| + 2..|r.value| - 1] == Decimal(n)
  {
    if n > 1 then Some(name + " (" + Decimal(n) + ")")
    else if n == 1 then Some(name)
    else None
  }

  /** The position of the first space in `s`, if there is one. */
  function FirstSpace(s: string): (r: Option<nat>)
    ensures r.Some? ==> r.value < |s| && s[r.value] == ' '
    ensures r.Some? ==> forall k :: 0 <= k < r.value ==> s[k] != ' '
    ensures r.None? ==> forall k :: 0 <= k < |s| ==> s[k] != ' '
  {
    if s == [] then None
    else if s[0] == ' ' then Some(0)
    else match FirstSpace(s[1..])
      case None => None
      case Some(i) => Some(i + 1)
  }

  /** Reads a count line back into the trait name and its count. */
  function ParseLine(line: string): (string, nat)
  {
    match FirstSpace(line)
    case None => (line, 1)
    case Some(k) =>
      if k + 2 <= |line| - 1 then (line[..k], ParseDecimal(line[k + 2..|line| - 1]))
      else (line[..k], 0)
  }

  /**
   For a trait name that is an identifier, a count line determines the name and the count:
   a bare name means 1 and `name (n)` means `n`, so distinct counts render differently.
   */
  lemma LineRoundTrip(name: string, n: nat)
    requires IsIdentifier(name) && n >= 1
    ensures CountLine(name, n).Some?
    ensures ParseLine(CountLine(name, n).value) == (name, n)
  {
    var line := CountLine(name, n).value;
    if n > 1 {
      var d := Decimal(n);
      assert line == name + " (" + d + ")";
      assert line[|name|] == ' ';
      assert forall k :: 0 <= k < |name| ==> line[k] == name[k];
      assert FirstSpace(line) == Some(|name|);
      assert line[..|name|] == name;
      assert line[|name| + 2..|line| - 1] == d;
      DecimalRoundTrip(n);
    } else {
      assert forall k :: 0 <= k < |name| ==> name[k] != ' ' by {
        forall k | 0 <= k < |name|
          ensures name[k] != ' '
        {
          assert IsIdentChar(name[k]);
        }
      }
    }
  }

  /**
   The `filter_map` over (name, count) entries: one line per entry with a positive count,
   in entry order (`CountLinesSingle` and `CountLinesAppend` pin this down).
   */
  function CountLines(entries: seq<(string, nat)>): (lines: seq<string>)
    ensures |lines| <= |entries|
    ensures forall line :: line in lines <==>
      exists e :: e in entries && e.1 >= 1 && CountLine(e.0, e.1) == Some(line)
  {
    if entries == [] then []
    else
      var rest := CountLines(entries[1..]);
      assert forall e :: e in entries <==> e == entries[0] || e in entries[1..];
      match CountLine(entries[0].0, entries[0].1)
      case None => rest
      case Some(line) => [line] + rest
  }

  /** A single entry gives its line when its count is positive, and nothing otherwise. */
  lemma CountLinesSingle(e: (string, nat))
    ensures CountLines([e]) == if e.1 >= 1 then [CountLine(e.0, e.1).value] else []
  {
    assert [e][1..] == [];
  }

  /**
   The lines of consecutive entries are the lines of each part in order: together with
   `CountLinesSingle` this fixes one line per positive entry, in entry order.
   */
  lemma {:induction false} CountLinesAppend(a: seq<(string, nat)>, b: seq<(string, nat)>)
    ensures CountLines(a + b) == CountLines(a) + CountLines(b)
  {
    if a == [] {
      assert a + b == b;
    } else {
      assert (a + b)[0] == a[0];
      assert (a + b)[1..] == a[1..] + b;
      CountLinesAppend(a[1..], b);
    }
  }

  /** Lines joined by line breaks (`Itertools::join("\n")`). */
  function Join(lines: seq<string>): (r: string)
    ensures r == "" <==> lines == [] || lines == [""]
    ensures lines != [] ==> |lines[0]| <= |r| && r[..|lines[0]|] == lines[0]
  {
    if lines == [] then ""
    else if |lines| == 1 then lines[0]
    else lines[0] + "\n" + Join(lines[1..])
  }

  /** A field body: `N/A` when empty, otherwise fenced as a `fix` code block. */
  function Field(body: string): (f: string)
    ensures body == "" ==> f == "N/A"
    ensures body != "" ==> |f| == |body| + 11
    ensures body != "" ==> f[..7] == "```fix\n" && f[7..|f| - 4] == body && f[|f| - 4..] == "\n```"
  {
    if body == "" then "N/A" else "```fix\n" + body + "\n```"
  }

  /** Splits at every line break; the inverse of `Join` on lines without line breaks. */
  function Split(s: string): (lines: seq<string>)
    ensures |lines| > 0
    decreases |s|
  {
    if s == [] then [""]
    else
      var rest := Split(s[1..]);
      if s[0] == '\n' then [""] + rest else [[s[0]] + rest[0]] + rest[1..]
  }

  predicate NoLineBreak(s: string)
  {
    forall k :: 0 <= k < |s| ==> s[k] != '\n'
  }

  lemma {:induction false} SplitLine(a: string, b: string)
    requires NoLineBreak(a)
    ensures Split(a + "\n" + b) == [a] + Split(b)
    ensures Split(a) == [a]
    decreases |a|
  {
    if a != [] {
      assert (a + "\n" + b)[1..] == a[1..] + "\n" + b;
      assert a[1..] + [] == a[1..];
      SplitLine(a[1..], b);
      assert [a[0]] + a[1..] == a;
    } else {
      assert a + "\n" + b == "\n" + b;
      assert ("\n" + b)[1..] == b;
    }
  }

  /** Splitting joined lines gives the lines back. */
  lemma {:induction false} SplitJoin(lines: seq<string>)
    requires |lines| > 0
    requires forall j :: 0 <= j < |lines| ==> NoLineBreak(lines[j])
    ensures Split(Join(lines)) == lines
  {
    if |lines| == 1 {
      SplitLine(lines[0], "");
    } else {
      SplitJoin(lines[1..]);
      SplitLine(lines[0], Join(lines[1..]));
      assert lines == [lines[0]] + lines[1..];
    }
  }

  lemma {:induction false} JoinEmpty(lines: seq<string>)
    requires forall j :: 0 <= j < |lines| ==> |lines[j]| > 0
    ensures Join(lines) == "" <==> lines == []
  {
    if |lines| > 1 {
      JoinEmpty(lines[1..]);
    }
  }

  /** A field is `N/A` exactly when it has no lines to show. */
  lemma FieldEmpty(lines: seq<string>)
    requires forall j :: 0 <= j < |lines| ==> |lines[j]| > 0
    ensures Field(Join(lines)) == "N/A" <==> lines == []
  {
    JoinEmpty(lines);
    var body := Join(lines);
    if body != "" {
      assert Field(body)[0] == '`';
    }
  }

  /**
   An iteration order over a map keyed by the `n` positions of a vocabulary: it visits each
   position exactly once (`EntriesOnce` derives the "at most once" half).
   */
  predicate Visits(order: seq<nat>, n: nat)
  {
    && |order| == n
    && (forall k :: 0 <= k < |order| ==> order[k] < n)
    && (forall t :: 0 <= t < n ==> t in order)
  }

  /**
   The (name, count) entries of a count map, listed in `order`: the map holds every
   vocabulary name, and `HashMap` iteration order is unspecified, so `order` is any order
   that visits each position once.  The entries are exactly the map's entries.
   */
  function Entries(v: seq<string>, counts: seq<nat>, order: seq<nat>): (e: seq<(string, nat)>)
    requires |counts| == |v|
    requires Visits(order, |v|)
    ensures |e| == |v|
    ensures forall k :: 0 <= k < |order| ==> e[k] == (v[order[k]], counts[order[k]])
    ensures forall x :: x in e <==> exists t :: 0 <= t < |v| && x == (v[t], counts[t])
  {
    var e := seq(|order|, k requires 0 <= k < |order| => (v[order[k]], counts[order[k]]));
    assert forall t :: 0 <= t < |v| ==> (v[t], counts[t]) in e by {
      forall t | 0 <= t < |v|
        ensures (v[t], counts[t]) in e
      {
        assert t in order;
        var k :| 0 <= k < |order| && order[k] == t;
        assert e[k] == (v[t], counts[t]);
      }
    }
    e
  }

  /** The positions a sequence holds. */
  function Members(s: seq<nat>): (m: set<nat>)
    ensures |m| <= |s|
    ensures forall x :: x in m <==> x in s
  {
    if s == [] then {} else {s[0]} + Members(s[1..])
  }

  /** A sequence with a repeated element holds fewer distinct elements than its length. */
  lemma {:induction false} MembersRepeat(s: seq<nat>, i: nat, j: nat)
    requires i < j < |s| && s[i] == s[j]
    ensures |Members(s)| < |s|
  {
    if i == 0 {
      assert s[j] == s[1..][j - 1];
      assert Members(s) == Members(s[1..]);
    } else {
      MembersRepeat(s[1..], i - 1, j - 1);
    }
  }

  /** An order that visits every position of `n` in `n` steps never repeats a position. */
  lemma VisitsOnce(order: seq<nat>, n: nat)
    requires Visits(order, n)
    ensures forall i, j :: 0 <= i < j < |order| ==> order[i] != order[j]
  {
    forall i, j | 0 <= i < j < |order|
      ensures order[i] != order[j]
    {
      if order[i] == order[j] {
        MembersRepeat(order, i, j);
        assert Universe(n) <= Members(order);
        UniverseSize(n);
        assert |Universe(n)| <= |Members(order)| by {
          SubsetSize(Universe(n), Members(order));
        }
        assert false;
      }
    }
  }

  lemma SubsetSize(a: set<nat>, b: set<nat>)
    requires a <= b
    ensures |a| <= |b|
  {
    assert b == a + (b - a);
  }

  /**
   Over a vocabulary without repeats, every entry of the map appears exactly once: the
   entries are pairwise different.
   */
  lemma EntriesOnce(v: seq<string>, counts: seq<nat>, order: seq<nat>)
    requires Distinct(v) && |counts| == |v|
    requires Visits(order, |v|)
    ensures var e := Entries(v, counts, order);
      forall i, j :: 0 <= i < j < |e| ==> e[i] != e[j]
  {
    VisitsOnce(order, |v|);
  }

  /** The four embed fields of a window. */
  datatype Fields = Fields(arena: string, blind: string, facade: string, unknown: string)

  /** The text `empty_or` can produce: `N/A`, or a non-empty body fenced as a `fix` block. */
  predicate IsFieldText(f: string)
  {
    f == "N/A" || (|f| > 11 && f[..7] == "```fix\n" && f[|f| - 4..] == "\n```")
  }

  /**
   The `query` embed: Arena and Blind list count lines in the map's iteration order, Facade
   and Unknown list names in vocabulary order; `WindowFieldsEmpty` says when each is `N/A`.
   */
  function RenderWindow(v: seq<string>, w: Window, arenaOrder: seq<nat>, blindOrder: seq<nat>): (f: Fields)
    requires |w.arena| == |v| && |w.blind| == |v|
    requires Visits(arenaOrder, |v|) && Visits(blindOrder, |v|)
    ensures IsFieldText(f.arena) && IsFieldText(f.blind)
    ensures IsFieldText(f.facade) && IsFieldText(f.unknown)
  {
    Fields(
      Field(Join(CountLines(Entries(v, w.arena, arenaOrder)))),
      Field(Join(CountLines(Entries(v, w.blind, blindOrder)))),
      Field(Join(ToNames(v, w.facade))),
      Field(Join(ToNames(v, w.unknown))))
  }

  lemma CountLinesNonEmpty(entries: seq<(string, nat)>)
    requires forall k :: 0 <= k < |entries| ==> |entries[k].0| > 0
    ensures forall j :: 0 <= j < |CountLines(entries)| ==> |CountLines(entries)[j]| > 0
  {
    var lines := CountLines(entries);
    forall j | 0 <= j < |lines|
      ensures |lines[j]| > 0
    {
      assert lines[j] in lines;
      var e :| e in entries && e.1 >= 1 && CountLine(e.0, e.1) == Some(lines[j]);
    }
  }

  lemma NamesNonEmpty(v: seq<string>, s: FlagSet)
    requires WellFormed(v)
    ensures forall j :: 0 <= j < |ToNames(v, s)| ==> |ToNames(v, s)[j]| > 0
  {
    var names := ToNames(v, s);
    forall j | 0 <= j < |names|
      ensures |names[j]| > 0
    {
      assert names[j] in names;
    }
  }

  /**
   A count field is `N/A` exactly when every count is 0, whatever order the map is iterated in.
   */
  lemma CountFieldEmpty(v: seq<string>, counts: seq<nat>, order: seq<nat>)
    requires WellFormed(v) && |counts| == |v|
    requires Visits(order, |v|)
    ensures Field(Join(CountLines(Entries(v, counts, order)))) == "N/A"
        <==> forall t :: 0 <= t < |v| ==> counts[t] == 0
  {
    var entries := Entries(v, counts, order);
    assert forall k :: 0 <= k < |entries| ==> |entries[k].0| > 0 by {
      forall k | 0 <= k < |entries|
        ensures |entries[k].0| > 0
      {
        assert IsIdentifier(v[order[k]]);
      }
    }
    EntriesFieldEmpty(entries);
    if exists t :: 0 <= t < |v| && counts[t] > 0 {
      var t :| 0 <= t < |v| && counts[t] > 0;
      assert (v[t], counts[t]) in entries;
    }
  }

  /** A count field is `N/A` exactly when no entry has a positive count. */
  lemma EntriesFieldEmpty(entries: seq<(string, nat)>)
    requires forall k :: 0 <= k < |entries| ==> |entries[k].0| > 0
    ensures Field(Join(CountLines(entries))) == "N/A" <==> forall e :: e in entries ==> e.1 == 0
  {
    CountLinesNonEmpty(entries);
    FieldEmpty(CountLines(entries));
    CountLinesNone(entries);
  }

  /** No line is produced exactly when no entry has a positive count. */
  lemma CountLinesNone(entries: seq<(string, nat)>)
    ensures CountLines(entries) == [] <==> forall e :: e in entries ==> e.1 == 0
  {
    var lines := CountLines(entries);
    if lines != [] {
      assert lines[0] in lines;
    }
    if exists e :: e in entries && e.1 > 0 {
      var e :| e in entries && e.1 > 0;
      assert CountLine(e.0, e.1).value in lines;
    }
  }

  /** A name field is `N/A` exactly when the flag set holds no defined flag. */
  lemma NameFieldEmpty(v: seq<string>, s: FlagSet)
    requires WellFormed(v)
    ensures Field(Join(ToNames(v, s))) == "N/A" <==> s * Universe(|v|) == {}
  {
    NamesNonEmpty(v, s);
    FieldEmpty(ToNames(v, s));
    ToNamesLength(v, s);
  }

  /** No Arena count is positive exactly when no self-chosen trait was chosen by a peer. */
  lemma ArenaAllZero(n: nat, own: FlagSet, peers: seq<FlagSet>)
    ensures (forall t :: 0 <= t < n ==> Expected(n, own, peers).arena[t] == 0)
        <==> own * Seen(peers) * Universe(n) == {}
  {
    if own * Seen(peers) * Universe(n) != {} {
      var t :| t in own * Seen(peers) * Universe(n);
      ArenaIsCorroborated(n, own, peers, t);
    }
    forall t | 0 <= t < n
      ensures Expected(n, own, peers).arena[t] > 0 ==> t in own * Seen(peers) * Universe(n)
    {
      ArenaIsCorroborated(n, own, peers, t);
    }
  }

  /** No Blind count is positive exactly when no other trait was chosen by a peer. */
  lemma BlindAllZero(n: nat, own: FlagSet, peers: seq<FlagSet>)
    ensures (forall t :: 0 <= t < n ==> Expected(n, own, peers).blind[t] == 0)
        <==> (Universe(n) - own) * Seen(peers) == {}
  {
    if (Universe(n) - own) * Seen(peers) != {} {
      var t :| t in (Universe(n) - own) * Seen(peers);
      ArenaIsCorroborated(n, own, peers, t);
    }
    forall t | 0 <= t < n
      ensures Expected(n, own, peers).blind[t] > 0 ==> t in (Universe(n) - own) * Seen(peers)
    {
      ArenaIsCorroborated(n, own, peers, t);
    }
  }

  lemma ArenaFieldEmpty(v: seq<string>, own: FlagSet, peers: seq<FlagSet>, order: seq<nat>)
    requires WellFormed(v)
    requires Visits(order, |v|)
    ensures Field(Join(CountLines(Entries(v, Expected(|v|, own, peers).arena, order)))) == "N/A"
        <==> own * Seen(peers) * Universe(|v|) == {}
  {
    CountFieldEmpty(v, Expected(|v|, own, peers).arena, order);
    ArenaAllZero(|v|, own, peers);
  }

  lemma BlindFieldEmpty(v: seq<string>, own: FlagSet, peers: seq<FlagSet>, order: seq<nat>)
    requires WellFormed(v)
    requires Visits(order, |v|)
    ensures Field(Join(CountLines(Entries(v, Expected(|v|, own, peers).blind, order)))) == "N/A"
        <==> (Universe(|v|) - own) * Seen(peers) == {}
  {
    CountFieldEmpty(v, Expected(|v|, own, peers).blind, order);
    BlindAllZero(|v|, own, peers);
  }

  /**
   The Arena and Blind fields show `N/A` exactly when no self-chosen, respectively no other,
   trait was chosen by a peer; Facade and Unknown show `N/A` exactly when those sets are empty.
   */
  lemma WindowFieldsEmpty(v: seq<string>, own: FlagSet, peers: seq<FlagSet>,
                          arenaOrder: seq<nat>, blindOrder: seq<nat>)
    requires WellFormed(v) && Defined(own, |v|)
    requires Visits(arenaOrder, |v|) && Visits(blindOrder, |v|)
    ensures var f := RenderWindow(v, Expected(|v|, own, peers), arenaOrder, blindOrder);
      && (f.arena == "N/A" <==> own * Seen(peers) * Universe(|v|) == {})
      && (f.blind == "N/A" <==> (Universe(|v|) - own) * Seen(peers) == {})
      && (f.facade == "N/A" <==> own - Seen(peers) == {})
      && (f.unknown == "N/A" <==> Universe(|v|) - own - Seen(peers) == {})
  {
    ArenaFieldEmpty(v, own, peers, arenaOrder);
    BlindFieldEmpty(v, own, peers, blindOrder);
    FacadeFieldEmpty(v, own, peers);
    UnknownFieldEmpty(v, own, peers);
  }

  lemma FacadeFieldEmpty(v: seq<string>, own: FlagSet, peers: seq<FlagSet>)
    requires WellFormed(v) && Defined(own, |v|)
    ensures Field(Join(ToNames(v, Expected(|v|, own, peers).facade))) == "N/A" <==> own - Seen(peers) == {}
  {
    var w := Expected(|v|, own, peers);
    NameFieldEmpty(v, w.facade);
    assert w.facade * Universe(|v|) == own - Seen(peers);
  }

  lemma UnknownFieldEmpty(v: seq<string>, own: FlagSet, peers: seq<FlagSet>)
    requires WellFormed(v)
    ensures Field(Join(ToNames(v, Expected(|v|, own, peers).unknown))) == "N/A"
        <==> Universe(|v|) - own - Seen(peers) == {}
  {
    var w := Expected(|v|, own, peers);
    NameFieldEmpty(v, w.unknown);
    assert w.unknown * Universe(|v|) == Universe(|v|) - own - Seen(peers);
  }
}

=== FILE: vocabulary.dfy ===
/**
 What the `generate_adjectives!` macro generates, stated as functions over an ordered
 vocabulary: the `ADJECTIVES` list taken from the macro input, one flag per name, the
 conversion of chosen names into a flag set (`adjectives_to_bitflags`) and the conversion
 of a flag set back into names (`bitflags_to_adjectives`).
 */
module Vocabulary {
  import opened Wrappers
  import opened Flags

  /** A token tree of the macro input, as far as the macro distinguishes them. */
  datatype Token =
    | Ident(name: string)
    | Punct(ch: char)
    | Literal(text: string)
    | Delimited(tokens: seq<Token>)

  /**
   `ADJECTIVES`: the identifiers among the top-level tokens of the macro input, in input
   order.  Separating commas, any other punctuation, literals and delimited groups are
   dropped (a group's contents are not searched).  In the generated code `Adjectives` names
   the flag type; here it names the function that computes the `ADJECTIVES` list.
   */
  function Adjectives(tokens: seq<Token>): (names: seq<string>)
    ensures |names| <= |tokens|
    ensures forall x :: x in names <==> Ident(x) in tokens
  {
    if tokens == [] then []
    else
      var head := if tokens[0].Ident? then [tokens[0].name] else [];
      var rest := Adjectives(tokens[1..]);
      assert forall x :: Ident(x) in tokens <==> Ident(x) == tokens[0] || Ident(x) in tokens[1..];
      head + rest
  }

  /** Extraction works token by token: splitting the input splits the vocabulary. */
  lemma {:induction false} AdjectivesAppend(a: seq<Token>, b: seq<Token>)
    ensures Adjectives(a + b) == Adjectives(a) + Adjectives(b)
  {
    if a == [] {
      assert a + b == b;
    } else {
      assert (a + b)[1..] == a[1..] + b;
      AdjectivesAppend(a[1..], b);
    }
  }

  predicate IsDigit(c: char)
  {
    '0' <= c <= '9'
  }

  predicate IsIdentStart(c: char)
  {
    ('a' <= c <= 'z') || ('A' <= c <= 'Z') || c == '_'
  }

  /** A character an identifier may contain after its first one. */
  predicate IsIdentChar(c: char)
  {
    IsIdentStart(c) || IsDigit(c)
  }

  /** The text of an identifier token: non-empty, no spaces, parentheses or line breaks. */
  predicate IsIdentifier(s: string)
  {
    |s| > 0 && IsIdentStart(s[0]) && forall k :: 0 <= k < |s| ==> IsIdentChar(s[k])
  }

  predicate Distinct(v: seq<string>)
  {
    forall i, j :: 0 <= i < j < |v| ==> v[i] != v[j]
  }

  /**
   A vocabulary the generated code compiles for: every name is an identifier, no name is
   repeated (two `const`s of the same name would clash) and every position has a bit in the
   `u64` (`1 << 64` does not fit).
   */
  predicate WellFormed(v: seq<string>)
  {
    && |v| <= Width
    && Distinct(v)
    && forall i :: 0 <= i < |v| ==> IsIdentifier(v[i])
  }

  /**
   The arm of the generated `match` that a name selects: the position of the first
   vocabulary entry equal to it, or `None` for the `_ => {}` arm.
   */
  function Find(v: seq<string>, name: string): (r: Option<nat>)
    ensures r.Some? ==> r.value < |v| && v[r.value] == name
    ensures r.Some? ==> forall j :: 0 <= j < r.value ==> v[j] != name
    ensures r.None? <==> name !in v
  {
    if v == [] then None
    else if v[0] == name then Some(0)
    else match Find(v[1..], name)
      case None => None
      case Some(i) => Some(i + 1)
  }

  /** In a vocabulary without repeats, each name's flag is its own position. */
  lemma FindPosition(v: seq<string>, i: nat)
    requires Distinct(v) && i < |v|
    ensures Find(v, v[i]) == Some(i)
  {
  }

  /** The position of a vocabulary name. */
  function Position(v: seq<string>, x: string): (i: nat)
    requires x in v
    ensures i < |v| && v[i] == x
  {
    Find(v, x).value
  }

  /**
   `adjectives_to_bitflags`: starting from the empty set, each input name in turn sets the
   flag of its vocabulary position; a name outside the vocabulary changes nothing.  The
   result holds exactly the positions whose names occur in the input.
   */
  function ToFlags(v: seq<string>, names: seq<string>): (s: FlagSet)
    requires Distinct(v)
    ensures Defined(s, |v|)
    ensures forall i: nat :: i in s <==> i < |v| && v[i] in names
  {
    if names == [] then {}
    else
      var init := names[..|names| - 1];
      var last := names[|names| - 1];
      var before := ToFlags(v, init);
      var s := match Find(v, last)
        case None => before
        case Some(i) => before + {i};
      assert forall x :: x in names <==> x in init || x == last by {
        assert names == init + [last];
      }
      assert forall i: nat :: i < |v| && v[i] == last ==> Find(v, last) == Some(i) by {
        forall i: nat | i < |v| && v[i] == last
          ensures Find(v, last) == Some(i)
        {
          FindPosition(v, i);
        }
      }
      s
  }

  /** Each name alone selects a single flag, and different names select different flags. */
  lemma SingleFlag(v: seq<string>, i: nat, j: nat)
    requires Distinct(v) && i < |v| && j < |v|
    ensures ToFlags(v, [v[i]]) == {i}
    ensures i != j ==> ToFlags(v, [v[i]]) != ToFlags(v, [v[j]])
  {
    assert forall k :: k in ToFlags(v, [v[i]]) <==> k == i;
    assert i !in ToFlags(v, [v[j]]) <== i != j;
  }

  /** The empty selection gives the empty set. */
  lemma ToFlagsEmpty(v: seq<string>)
    requires Distinct(v)
    ensures ToFlags(v, []) == {}
  {
  }

  /** Only which names occur matters: order and repetition of the input are irrelevant. */
  lemma ToFlagsIgnoresOrder(v: seq<string>, a: seq<string>, b: seq<string>)
    requires Distinct(v)
    requires forall x :: x in a <==> x in b
    ensures ToFlags(v, a) == ToFlags(v, b)
  {
  }

  /** A name outside the vocabulary is silently dropped, wherever it appears. */
  lemma ToFlagsIgnoresUnknown(v: seq<string>, a: seq<string>, b: seq<string>, x: string)
    requires Distinct(v) && x !in v
    ensures ToFlags(v, a + [x] + b) == ToFlags(v, a + b)
  {
    assert forall y :: y in a + [x] + b <==> y in a || y == x || y in b;
  }

  /**
   `bitflags_to_adjectives` restricted to the first `k` names: the unrolled `if` chain that
   pushes each name whose flag is set, in vocabulary order.
   */
  function NamesBelow(v: seq<string>, s: FlagSet, k: nat): (names: seq<string>)
    requires k <= |v|
    ensures forall x :: x in names <==> exists i :: 0 <= i < k && i in s && v[i] == x
  {
    if k == 0 then []
    else
      var before := NamesBelow(v, s, k - 1);
      if k - 1 in s then before + [v[k - 1]] else before
  }

  /** `bitflags_to_adjectives`: the names of the set flags, in vocabulary order. */
  function ToNames(v: seq<string>, s: FlagSet): (names: seq<string>)
    ensures forall x :: x in names <==> exists i :: 0 <= i < |v| && i in s && v[i] == x
  {
    NamesBelow(v, s, |v|)
  }

  /**
   `names` lists vocabulary names in strictly increasing vocabulary position, so in
   vocabulary order and each at most once.
   */
  predicate InVocabularyOrder(v: seq<string>, names: seq<string>)
  {
    && (forall j :: 0 <= j < |names| ==> names[j] in v)
    && forall a, b :: 0 <= a < b < |names| ==> Position(v, names[a]) < Position(v, names[b])
  }

  lemma {:induction false} NamesBelowOrdered(v: seq<string>, s: FlagSet, k: nat)
    requires Distinct(v) && k <= |v|
    ensures InVocabularyOrder(v, NamesBelow(v, s, k))
    ensures forall j :: 0 <= j < |NamesBelow(v, s, k)| ==> Position(v, NamesBelow(v, s, k)[j]) < k
  {
    if k > 0 {
      var before := NamesBelow(v, s, k - 1);
      NamesBelowOrdered(v, s, k - 1);
      if k - 1 in s {
        FindPosition(v, k - 1);
        OrderedSnoc(v, before, v[k - 1]);
      }
    }
  }

  /** A name placed after every name of an ordered list keeps it ordered. */
  lemma OrderedSnoc(v: seq<string>, a: seq<string>, x: string)
    requires InVocabularyOrder(v, a) && x in v
    requires forall j :: 0 <= j < |a| ==> Position(v, a[j]) < Position(v, x)
    ensures InVocabularyOrder(v, a + [x])
  {
    var r := a + [x];
    assert forall j :: 0 <= j < |a| ==> r[j] == a[j];
    assert r[|a|] == x;
  }

  /** The names come out in vocabulary order, each exactly once. */
  lemma ToNamesOrdered(v: seq<string>, s: FlagSet)
    requires Distinct(v)
    ensures InVocabularyOrder(v, ToNames(v, s))
  {
    NamesBelowOrdered(v, s, |v|);
  }

  /** One name per set defined flag: the list is as long as the set restricted to the vocabulary. */
  lemma NamesBelowLength(v: seq<string>, s: FlagSet, k: nat)
    requires k <= |v|
    ensures |NamesBelow(v, s, k)| == |s * Universe(k)|
  {
    NamesBelowCount(v, s, k);
    RestrictCount(s, k);
  }

  /** The first k arms push one name for each set flag below k. */
  lemma {:induction false} NamesBelowCount(v: seq<string>, s: FlagSet, k: nat)
    requires k <= |v|
    ensures |NamesBelow(v, s, k)| == SetBelow(s, k)
  {
    if k > 0 {
      NamesBelowCount(v, s, k - 1);
    }
  }

  /** Counting set flags one position at a time gives the size of the restricted set. */
  lemma RestrictCount(s: FlagSet, k: nat)
    ensures SetBelow(s, k) == |s * Universe(k)|
  {
    BelowCount(s, k);
    assert s * Universe(k) == Below(s, k);
  }

  lemma ToNamesLength(v: seq<string>, s: FlagSet)
    ensures |ToNames(v, s)| == |s * Universe(|v|)|
  {
    NamesBelowLength(v, s, |v|);
  }

  /** Dropping the head of a list in vocabulary order keeps it in vocabulary order. */
  lemma TailOrdered(v: seq<string>, a: seq<string>)
    requires a != [] && InVocabularyOrder(v, a)
    ensures InVocabularyOrder(v, a[1..])
  {
    forall p, q | 0 <= p < q < |a[1..]|
      ensures Position(v, a[1..][p]) < Position(v, a[1..][q])
    {
      assert a[1..][p] == a[p + 1] && a[1..][q] == a[q + 1];
    }
  }

  /** Every member after the head of a list in vocabulary order comes later than the head. */
  lemma HeadIsLeast(v: seq<string>, a: seq<string>, x: string)
    requires a != [] && InVocabularyOrder(v, a) && x in a[1..]
    ensures x != a[0] && Position(v, a[0]) < Position(v, x)
  {
    var i :| 0 <= i < |a[1..]| && a[1..][i] == x;
    assert a[i + 1] == x;
  }

  /** No member of a list in vocabulary order comes before its head. */
  lemma HeadIsFirst(v: seq<string>, a: seq<string>, x: string)
    requires a != [] && InVocabularyOrder(v, a) && x in a
    ensures Position(v, a[0]) <= Position(v, x)
  {
    var i :| 0 <= i < |a| && a[i] == x;
    if i > 0 {
      assert Position(v, a[0]) < Position(v, a[i]);
    }
  }

  /** Two non-empty lists in vocabulary order with the same members start alike. */
  lemma HeadsAgree(v: seq<string>, a: seq<string>, b: seq<string>)
    requires a != [] && b != []
    requires InVocabularyOrder(v, a) && InVocabularyOrder(v, b)
    requires forall x :: x in a <==> x in b
    ensures a[0] == b[0]
  {
    HeadIsFirst(v, a, b[0]);
    HeadIsFirst(v, b, a[0]);
    assert v[Position(v, a[0])] == a[0] && v[Position(v, b[0])] == b[0];
  }

  /**
   Two lists in vocabulary order with the same members are the same list: vocabulary order
   determines a list from its members.
   */
  lemma {:induction false} OrderedUnique(v: seq<string>, a: seq<string>, b: seq<string>)
    requires InVocabularyOrder(v, a) && InVocabularyOrder(v, b)
    requires forall x :: x in a <==> x in b
    ensures a == b
    decreases |a|
  {
    assert a == [] <==> b == [] by {
      if a != [] {
        assert a[0] in b;
      }
      if b != [] {
        assert b[0] in a;
      }
    }
    if a != [] {
      HeadsAgree(v, a, b);
      forall x
        ensures x in a[1..] <==> x in b[1..]
      {
        assert a == [a[0]] + a[1..] && b == [b[0]] + b[1..];
        assert x in a <==> x == a[0] || x in a[1..];
        assert x in b <==> x == b[0] || x in b[1..];
        if x in a[1..] {
          HeadIsLeast(v, a, x);
        }
        if x in b[1..] {
          HeadIsLeast(v, b, x);
        }
      }
      TailOrdered(v, a);
      TailOrdered(v, b);
      OrderedUnique(v, a[1..], b[1..]);
      assert a == [a[0]] + a[1..] && b == [b[0]] + b[1..];
    }
  }

  /** Set to names to set is the identity on every set of defined flags. */
  lemma FlagsRoundTrip(v: seq<string>, s: FlagSet)
    requires Distinct(v) && Defined(s, |v|)
    ensures ToFlags(v, ToNames(v, s)) == s
  {
    var r := ToFlags(v, ToNames(v, s));
    forall i
      ensures i in r <==> i in s
    {
      if i in r {
        var j :| 0 <= j < |v| && j in s && v[j] == v[i];
      }
    }
  }

  /**
   Names to set to names yields the input's vocabulary members, each once, in vocabulary
   order; with `OrderedUnique` this determines the result completely.
   */
  lemma NamesRoundTrip(v: seq<string>, names: seq<string>)
    requires Distinct(v)
    ensures InVocabularyOrder(v, ToNames(v, ToFlags(v, names)))
    ensures forall x :: x in ToNames(v, ToFlags(v, names)) <==> x in names && x in v
  {
    ToNamesOrdered(v, ToFlags(v, names));
    forall x | x in names && x in v
      ensures x in ToNames(v, ToFlags(v, names))
    {
      var i := Position(v, x);
      assert i in ToFlags(v, names);
    }
  }
}

=== FILE: wrappers.dfy ===
/** Optional values and error-carrying results, for lookups that can miss and commands that can be refused. */
module Wrappers {

  datatype Option<+T> = None | Some(value: T)

  datatype Result<+R, +E> = Success(value: R) | Failure(error: E)
}
